=== FILE: README.md ===
# Upload-to-table loader, modelled in Dafny

The repository is a small HTTP service. It accepts one uploaded spreadsheet (a
semicolon-separated `.csv` file or an `.xlsx` workbook), takes the first row as column
headers and the remaining rows as data, infers a `NUMERIC` or `VARCHAR` type per
column, creates the table `uploaded_data` with one `CREATE TABLE IF NOT EXISTS`
statement, and loads every data row with one parameterised `INSERT` per row.

This project models that pipeline, all of it in `main.go`, as pure functions over
immutable sequences:

- `Quoting` covers `quoteIdent`: escaping, the surrounding quotes, and the inverse. It also
  has a reader that parses a quoted identifier the way an SQL lexer does.
- `Inference` covers `indentColumnTypes`. The Go loop, including its `break`, is the
  method `IndentColumnTypes`, proved equal to the quantified definition `ColumnTypes`.
- `Schema` covers `createTable`: the DDL text and the single statement it runs.
- `Loader` covers `insertRows`: the shared template, the per-row arguments with the
  `args = nil` quirk (method `RowArgs`), and the row loop that stops at the first
  failing statement.
- `Tabular` covers `filepath.Ext`, the CSV header/data split, and `readXLSX`. The row loop
  is the method `WalkRows`.
- `Upload` covers `uploadHandler`: method and form checks, dispatch on the extension, type
  inference, DDL, load, and the reply.
- `Text`, `SqlText`, `Database`, `Outcomes` and `Dataset` hold shared helpers: Go's
  `strings.TrimSpace`, the float syntax, `strings.Join`, the statement type, and the
  error kinds with their status codes.

The database is an oracle `db(history, statement)`. It says whether `db.Exec` succeeds,
given every statement executed before. Each operation returns the trace of statements
it executed, in order. The generated SQL has a partner: a small reader (`ReadCreateTable`,
`ReadInsert`) that parses a statement back. The read-back lemmas prove two things. A
statement declares exactly the table and the headers, in header order. No header,
whatever characters it holds, can end its identifier early or inject SQL.

`readXLSX` requires a non-empty header row but no data row, so a sheet holding just a
header row creates the table and loads zero rows (`Upload.XlsxHeaderOnlyLoaded`).

The CSV reader keeps its default field-count rule: every record must have as many fields
as the first, or `ReadAll` fails and the upload is a 400 (`Upload.CsvRaggedRejected`).
Ragged rows therefore never reach the type inference or the load through CSV, and the
`args = nil` short-row path of `insertRows` is reachable only through XLSX, whose rows
end early when their trailing cells are empty: such a row's INSERT binds no arguments
(`Upload.XlsxUploadTrace`). The tokenizer is abstract, so a CSV
result whose first record is empty is admitted too. It fails as `NoColumns` (status
500), because `createTable` rejects the empty header list. Go's `encoding/csv` never
yields such a record.

## Model

| member | source | states |
|---|---|---|
| Quoting.QuoteIdent | main.go:163-166 | the identifier is the name wrapped in double quotes, `\|s\| + 2 + (number of quotes in s)` long; a name without quotes is only wrapped |
| Quoting.EscapeQuoteFree | main.go:164 | replacing `"` by `""` leaves a quote-free name unchanged |
| Quoting.UnescapeEscape | main.go:164 | collapsing each `""` back to `"` undoes the escaping |
| Quoting.EscapeUnescape | main.go:164 | every text the unescaper accepts is the escaping of what it returns, so escaping is a bijection onto texts without a lone quote |
| Quoting.UnquoteQuoteIdent | main.go:163-166 | stripping the outer quotes and collapsing `""` gives the name back |
| Quoting.QuoteIdentInjective | main.go:163-166 | two different names never produce the same identifier |
| Quoting.ReadQuotedBodyEscape | main.go:164-165 | a lexer reading the escaped name plus the closing quote stops exactly after that quote and yields the name |
| Quoting.ReadIdentQuoteIdent | main.go:163-166 | a quoted identifier followed by text that does not start with a quote reads back as exactly the name, with the rest untouched, so it cannot end early |
| Text.TrimSpace | main.go:145 | the trimmed cell is the part of the cell between its leading and trailing whitespace, and it neither starts nor ends with whitespace |
| Text.TrimSpaceEmpty | main.go:145-147 | a cell is skipped as blank exactly when every character in it is whitespace |
| Text.TrimSpaceIdempotent | main.go:145 | trimming twice is trimming once |
| Text.DecimalValue | main.go:203 | the `%d` rendering of a placeholder number reads back as that number |
| SqlText.ReadItemRender | main.go:179-203 | a rendered column, column definition or `$n` placeholder reads back as itself when a separator or `)` follows |
| SqlText.ReadListJoin | main.go:182-206 | a list joined with `", "` and closed by `)` reads back as the same items in the same order |
| Inference.LooksNumeric | main.go:140-153 | the scan with its early exit says "numeric" exactly when no row has a non-blank, non-float cell in the column |
| Inference.ColumnTypes | main.go:136-160 | one type per header; column `c` is VARCHAR exactly when some row has a cell at `c` that is non-blank after trimming and not a float, and NUMERIC exactly when none has |
| Inference.ScanColumn | main.go:140-153 | the row scan with `continue` on short rows and blank cells and `break` on the first non-float gives the same answer as inspecting every row |
| Inference.IndentColumnTypes | main.go:136-160 | the nested loops compute exactly `ColumnTypes`, so a column is VARCHAR exactly when some row breaks it |
| Inference.CellsAtNumeric | main.go:141-153 | the column is numeric exactly when every cell present at that index, in row order, is blank or a float; short rows contribute nothing |
| Inference.ColumnTypeIsLocal | main.go:139-153 | a column's type depends only on the cells present at its index, not on other columns or on how many rows are too short |
| Inference.BlankColumnIsNumeric | main.go:141-155 | a column whose cells are all blank or missing is NUMERIC |
| Inference.OneTextCellMakesVarchar | main.go:149-157 | a single non-blank, non-float cell, in any row, makes its column VARCHAR |
| Schema.CreateTableSql | main.go:168-182 | there is no DDL exactly when the header list is empty, and that error is "no columns" |
| Schema.ColumnDefsReadable | main.go:173-180 | every column definition carries a type a reader can delimit; an unset type becomes VARCHAR |
| Schema.CreateTableReadBack | main.go:168-182 | the DDL declares exactly the given table and, in header order, exactly the headers with their types (unset ones as VARCHAR), whatever characters the names contain |
| Schema.CreateTable | main.go:168-189 | no statement for an empty header list; otherwise exactly one statement, without arguments, whose text is the DDL, and the step fails exactly when the database rejects it |
| Loader.InsertTemplateReadBack | main.go:196-206 | the template names exactly the table, the quoted headers in order as columns, and `$1`…`$n` as values, one per header |
| Loader.RowArgs | main.go:208-216 | a row at least as wide as the header binds its first n cells in order; a shorter row binds no arguments at all, not nil padding |
| Loader.ArgsArity | main.go:209-217 | the argument count matches the placeholder count exactly when the row is at least as wide as the header; no nil argument ever reaches the database |
| Loader.InsertEach | main.go:208-221 | the row loop adds at most one statement per row, and fails only with an insert error after at least one statement |
| Loader.InsertEachTrace | main.go:206-220 | the loop keeps the earlier statements, and its k-th statement is the shared template bound to the k-th row's arguments |
| Loader.InsertEachOutcome | main.go:208-221 | when the loop passes, every row was executed and accepted; when it fails, every earlier row was accepted and the last statement is the rejected one, with later rows never attempted |
| Loader.InsertRows | main.go:191-222 | nothing for zero rows; otherwise rows run in file order with the shared template, all of them on success, stopping at the first rejected row on failure |
| Loader.InsertRowsAfterOne | main.go:208-220 | after the DDL, statement k of the load binds row k − 1 |
| Loader.InsertRowsStopAfterOne | main.go:208-220 | a load that fails after one accepted statement ends at the statement the database rejected, with every earlier one accepted |
| Tabular.ExtBelow | main.go:44 | the extension found scanning below a position starts at the last '.' with no '.' or '/' after it; none is found when every '.' is followed by a '/' |
| Tabular.Ext | main.go:44 | the extension is the suffix from the last '.' of the final path element, dot included, or empty when that element has no '.' |
| Tabular.SplitCsv | main.go:59-64 | fewer than two records is the "too few records" error; otherwise the first record is the header and the rest, unchanged and in order, are the data rows |
| Tabular.SheetRows | main.go:113-127 | an unreadable row fails the sheet; otherwise row 0 is the header and every later row, in order, is a data row |
| Tabular.WalkRows | main.go:113-127 | the loop with its row index computes exactly `SheetRows` |
| Tabular.SplitSheet | main.go:113-133 | the sheet is accepted exactly when every row reads and the first row is non-empty; header and data rows come from row 0 and the later rows, and the error otherwise is "no headers" or "rows unreadable" |
| Tabular.ReadCsv | main.go:51-64 | a tokenizer error or records of unequal width are `CsvUnreadable`; otherwise the result is the header/data split; every error is `CsvUnreadable` or `TooFewRecords` |
| Tabular.ReadXlsx | main.go:96-134 | the workbook is accepted exactly when it opens, has a first sheet with a row iterator, every row reads and the header row is non-empty; headers and rows are row 0 and the later rows in order; every failure is one of the four reading errors, none a server error |
| Tabular.HeaderOnlySheet | main.go:113-133 | a first sheet holding only a non-empty header row is read with zero data rows |
| Upload.ParseUpload | main.go:44-78 | the extension must be exactly ".csv" or ".xlsx" (case-sensitive), each selecting its reader; a CSV read error, including records of unequal width, is `CsvUnreadable`; a parse failure is never a server error |
| Upload.LoadRunDdl | main.go:80-85 | the first statement is the DDL for the inferred types, without arguments; the database rejects it exactly when the whole run is that one statement, failed with `CreateFailed`, so no insert is attempted |
| Upload.LoadRunInserts | main.go:82-90 | every later statement is the INSERT template bound to the arguments of the data row at the same position |
| Upload.LoadRunOutcome | main.go:80-90 | the load passes exactly when there are columns and the database accepted the DDL and one statement per row; every failure is a server error |
| Upload.LoadRunStopsAtRejection | main.go:80-90 | a failed load with columns ends at the statement the database rejected, the DDL or an INSERT, with every earlier statement accepted |
| Upload.CreateAndLoad | main.go:80-93 | a load is reported, with the file name, size, headers and row count, exactly when the table has columns and all 1 + n statements were accepted; every other outcome is the load's own error, a 500-class one, and with columns the trace ends at the rejected statement |
| Upload.HandleUpload | main.go:44-93 | a client error during parsing executes nothing; a reported load comes from a successful parse, carries its file name, size, headers and data-row count, and executed first the DDL for those headers with their inferred types, then one accepted statement per reported row; once parsing yields columns, the DDL is always the first statement, and the database rejecting it gives a 500 with that statement alone; a rejection after any statement ends at the statement the database rejected; after a successful parse, every later statement is the INSERT template bound to the arguments of the data row at the same position |
| Upload.Handle | main.go:20-93 | a non-POST gets 405 and a missing form gets 400, with no statements; every reply is 200, 400, 405 or 500; a 400 or 405 never reaches the database; a rejection after any statement ends at the statement the database rejected |
| Upload.UnsupportedExtensionRejected | main.go:44-77 | any extension other than exactly ".csv" or ".xlsx" (".CSV" included) is a 400 before any statement |
| Upload.CsvUploadTrace | main.go:50-90 | a CSV upload of equal-width records runs the DDL for the first record with the inferred types, then one INSERT per later record in order, each binding all of that record's cells; it is loaded, with the name, size, header and record count, exactly when every statement was accepted, and otherwise it ends at the statement the database rejected |
| Upload.CsvUploadAllAccepted | main.go:50-93 | with a database that accepts every statement, a CSV upload of equal-width records is loaded, with one statement per record |
| Upload.CsvRaggedRejected | main.go:51-57 | CSV records of unequal width are a read error: a 400 before any statement |
| Upload.CsvWithoutDataRejected | main.go:59-61 | a CSV file with fewer than two records is a 400 before any statement |
| Upload.XlsxUploadTrace | main.go:66-93 | an XLSX upload whose sheet reads runs, after the DDL, one INSERT per later sheet row in order, bound to that row's cells; a row shorter than the header is bound to no arguments |
| Upload.XlsxHeaderOnlyLoaded | main.go:66-93 | an XLSX sheet with only a non-empty header row runs the DDL alone, with no INSERT, and is reported with zero rows exactly when the database accepts that DDL |
| Upload.CommittedStatusIgnoresLater | main.go:40 | under net/http's rule only the first write fixes the status: writes appended later never change it |
| Upload.HandlerWrites | main.go:20-93 | every path writes at least twice; once the file is found, the "received file" body line comes first; a rejection writes its intended status through `http.Error` |
| Upload.WireStatusBeforeFileLine | main.go:20-35 | the 405 and the missing form's 400 are written before any body text, so they reach the client as intended |
| Upload.WireStatusMasksErrors | main.go:40-90 | once the "received file" line is written, every later rejection writes its intended 400 or 500, but the client receives 200 |
| Upload.TxtUploadAnsweredOk | main.go:40-77 | a ".txt" upload should be a 400, but the client receives 200 |

## Left out

- HTTP plumbing is not modelled: the multipart parsing with its 32 MiB memory limit, `FormFile`, closing the file, and writing the body. The parsed request becomes `Request` (method plus an optional upload), so a missing or unparsable "file" field is `None`.
- Response text is not modelled: the Russian error messages and the "columns"/"row count" lines. The handler's writes are kept only as their kind, an explicit status or body text (`Upload.HandlerWrites`). An error becomes an `ErrorKind` mapped to 405, 400 or 500, and a success becomes the `Loaded` reply carrying the columns and the row count.
- `main` (environment loading, `sql.Open`, `Ping`, the listener) is process start-up and is not modelled.
- The `encoding/csv` tokenizer and the `excelize` decoder are foreign libraries. Their results are inputs: the CSV records before the field-count check, or a syntax error, and a `Workbook` giving the sheet names and the first sheet's rows, each read or failed. The field-count check itself (`Tabular.SameWidth`) is modelled.
- `db.Exec` is the oracle `db`. A real database's state, transactions and concurrency between requests are not modelled.
- Text.IsFloat: `strconv.ParseFloat` is approximated by decimal syntax plus signed "inf"/"infinity" and unsigned "nan" in any case. Hexadecimal floats and underscores are not accepted, and out-of-range values such as "1e400" are accepted although Go reports a range error, which the source treats as "not a float".
- Text.TrimSpace: works on Unicode characters rather than on UTF-8 bytes, so invalid UTF-8 in a cell is not modelled.

## Findings

| source | as written | input that shows it | evidently intended | confidence | as-written member | corrected member |
|---|---|---|---|---|---|---|
| main.go:40 | the "received file" line is written to the response body before the extension check, the readers and the database steps. In Go the first body write commits status 200, so every later `http.Error` (main.go:56, 60, 69, 76, 83, 88) changes only the body text | a POST of "data.txt": the reply is the unsupported-format error, but the status is 200 | these errors reach the client as 400 or 500, with no statement executed for a 400 | high; not executed | Upload.WireStatusMasksErrors | Upload.Handle |

=== FILE: database.dfy ===
/** The database as the pipeline sees it: statements passed to db.Exec, an oracle that
    decides each statement's success, and the trace of everything executed. */
module Database {
  import opened Outcomes

  /** One positional argument: Go's untyped nil (the zero value of `any`) or a cell's text. */
  datatype Arg = Nil | Value(text: string)

  /** One call of db.Exec: the statement text and its positional arguments. */
  datatype Statement = Statement(text: string, args: seq<Arg>)

  /** Whether the database accepts a statement, given every statement executed before it. */
  type Oracle = (seq<Statement>, Statement) -> bool

  /** Every statement submitted so far, in order, and how the step ended. When a step
      fails on the database, its failing statement is the last one of the trace. */
  datatype Run = Run(trace: seq<Statement>, outcome: Outcome)

  /** Every statement of `trace` from position `from` on was accepted by the database. */
  predicate AcceptedFrom(db: Oracle, trace: seq<Statement>, from: nat) {
    forall k :: from <= k < |trace| ==> db(trace[..k], trace[k])
  }

  /** A trace that ends at a rejection: every statement before the last was accepted, and
      the database rejected the last one. */
  predicate StopsAtRejection(db: Oracle, trace: seq<Statement>) {
    && |trace| >= 1
    && AcceptedFrom(db, trace[..|trace| - 1], 0)
    && !db(trace[..|trace| - 1], trace[|trace| - 1])
  }

  /** Acceptance from `from` is acceptance of the statement at `from` and of the rest. */
  lemma AcceptedFromStep(db: Oracle, trace: seq<Statement>, from: nat)
    requires from < |trace|
    ensures AcceptedFrom(db, trace, from) <==> db(trace[..from], trace[from]) && AcceptedFrom(db, trace, from + 1)
  {
  }
}

=== FILE: dataset.dfy ===
/** The uniform shape both tabular parsers produce. */
module Dataset {

  /** One record: its cells as text, in file order. CSV records all share the header's
      width; XLSX rows need not, a row ending early when its trailing cells are empty. */
  type Row = seq<string>

  /** A parsed upload: the header row and the data rows after it, in file order. */
  datatype Table = Table(headers: Row, rows: seq<Row>)
}

=== FILE: inference.dfy ===
/** Column type inference: a column is NUMERIC unless one of its present, non-blank
    cells fails to parse as a float. */
module Inference {
  import opened Text
  import opened SqlText
  import opened Dataset

  /** The row has a cell in column `c` that is not blank after trimming. */
  predicate Informative(row: Row, c: nat) {
    c < |row| && TrimSpace(row[c]) != ""
  }

  /** A cell compatible with a numeric column: blank, or a float, once trimmed. */
  predicate NumericOrBlank(cell: string) {
    var v := TrimSpace(cell);
    v == "" || IsFloat(v)
  }

  /** The row's cell in column `c` rules out a numeric column. */
  predicate BreaksNumeric(row: Row, c: nat) {
    c < |row| && !NumericOrBlank(row[c])
  }

  /** The scan of one column: skip short rows and blank cells, stop at the first cell that
      is not a float. Stopping early gives the same answer as inspecting every row. */
  function LooksNumeric(rows: seq<Row>, c: nat): (b: bool)
    ensures b <==> forall k :: 0 <= k < |rows| ==> !BreaksNumeric(rows[k], c)
  {
    if |rows| == 0 then true
    else if c >= |rows[0]| then LooksNumeric(rows[1..], c)
    else
      var val := TrimSpace(rows[0][c]);
      if val == "" then LooksNumeric(rows[1..], c)
      else if !IsFloat(val) then false
      else LooksNumeric(rows[1..], c)
  }

  /** The type of column `c`. */
  function ColumnType(rows: seq<Row>, c: nat): string {
    if LooksNumeric(rows, c) then Numeric else Varchar
  }

  /** One type per header position: VARCHAR exactly when some row breaks the column,
      NUMERIC otherwise (in particular when every cell is blank or missing). */
  function ColumnTypes(headers: Row, rows: seq<Row>): (types: seq<string>)
    ensures |types| == |headers|
    ensures forall c :: 0 <= c < |types| ==>
      && (types[c] == Varchar <==> exists k :: 0 <= k < |rows| && BreaksNumeric(rows[k], c))
      && (types[c] == Numeric <==> forall k :: 0 <= k < |rows| ==> !BreaksNumeric(rows[k], c))
  {
    seq(|headers|, c requires 0 <= c => ColumnType(rows, c))
  }

  /** The row scan of indentColumnTypes for one column: skip short rows and blank cells,
      and `break` at the first cell that is neither blank nor a float. */
  method ScanColumn(rows: seq<Row>, col: nat) returns (isNum: bool)
    ensures isNum <==> forall k :: 0 <= k < |rows| ==> !BreaksNumeric(rows[k], col)
    ensures isNum == LooksNumeric(rows, col)
  {
    isNum := true;
    var k := 0;
    while k < |rows|
      invariant k <= |rows|
      invariant forall j :: 0 <= j < k ==> !BreaksNumeric(rows[j], col)
    {
      var row := rows[k];
      if col < |row| {
        var val := TrimSpace(row[col]);
        if val != "" && !IsFloat(val) {
          assert BreaksNumeric(rows[k], col);
          isNum := false;
          break;
        }
      }
      k := k + 1;
    }
  }

  /** indentColumnTypes as written: one row scan per header position. */
  method IndentColumnTypes(headers: Row, rows: seq<Row>) returns (types: seq<string>)
    ensures types == ColumnTypes(headers, rows)
    ensures forall c :: 0 <= c < |types| ==>
      (types[c] == Varchar <==> exists k :: 0 <= k < |rows| && BreaksNumeric(rows[k], c))
  {
    types := seq(|headers|, _ => "");
    var col := 0;
    while col < |headers|
      invariant col <= |headers| && |types| == |headers|
      invariant forall c :: 0 <= c < col ==> types[c] == ColumnType(rows, c)
    {
      var isNum := ScanColumn(rows, col);
      if isNum {
        types := types[col := Numeric];
      } else {
        types := types[col := Varchar];
      }
      col := col + 1;
    }
    assert types == ColumnTypes(headers, rows);
  }

  /** The cells present in column `c`, in row order; rows too short to reach `c` contribute nothing. */
  function CellsAt(rows: seq<Row>, c: nat): seq<string> {
    if |rows| == 0 then []
    else if c < |rows[0]| then [rows[0][c]] + CellsAt(rows[1..], c)
    else CellsAt(rows[1..], c)
  }

  predicate AllNumericOrBlank(cells: seq<string>) {
    forall i :: 0 <= i < |cells| ==> NumericOrBlank(cells[i])
  }

  lemma {:induction false} CellsAtNumeric(rows: seq<Row>, c: nat)
    ensures AllNumericOrBlank(CellsAt(rows, c)) <==> forall k :: 0 <= k < |rows| ==> !BreaksNumeric(rows[k], c)
  {
    if |rows| > 0 {
      CellsAtNumeric(rows[1..], c);
      var tail := CellsAt(rows[1..], c);
      assert forall k :: 1 <= k < |rows| ==> rows[k] == rows[1..][k - 1];
      if c < |rows[0]| {
        var cells := [rows[0][c]] + tail;
        assert forall i :: 0 <= i < |tail| ==> cells[i + 1] == tail[i];
        assert cells[0] == rows[0][c];
      }
    }
  }

  /** A column's type depends on nothing but the cells present in that column: two row
      sets whose cells at `c` agree, in order, give column `c` the same type, whatever
      their other columns hold and however many rows are too short to reach `c`. */
  lemma ColumnTypeIsLocal(headers: Row, rows1: seq<Row>, rows2: seq<Row>, c: nat)
    requires c < |headers|
    requires CellsAt(rows1, c) == CellsAt(rows2, c)
    ensures ColumnTypes(headers, rows1)[c] == ColumnTypes(headers, rows2)[c]
  {
    CellsAtNumeric(rows1, c);
    CellsAtNumeric(rows2, c);
  }

  /** A column without a single non-blank cell is NUMERIC. */
  lemma BlankColumnIsNumeric(headers: Row, rows: seq<Row>, c: nat)
    requires c < |headers|
    requires forall k :: 0 <= k < |rows| ==> !Informative(rows[k], c)
    ensures ColumnTypes(headers, rows)[c] == Numeric
  {
  }

  /** One non-numeric, non-blank cell makes its column VARCHAR, wherever it sits. */
  lemma OneTextCellMakesVarchar(headers: Row, rows: seq<Row>, k: nat, c: nat)
    requires c < |headers| && k < |rows|
    requires BreaksNumeric(rows[k], c)
    ensures ColumnTypes(headers, rows)[c] == Varchar
  {
  }
}

=== FILE: loader.dfy ===
/** insertRows: one parameterised INSERT template, executed once per data row in file
    order, stopping at the first row the database rejects. */
module Loader {
  import opened Outcomes
  import opened Quoting
  import opened SqlText
  import opened Database

  const InsertPrefix := "INSERT INTO "
  const ValuesInfix := ") VALUES ("

  /** The column list: every header, in order. */
  function Columns(headers: seq<string>): (cols: seq<Item>)
    ensures |cols| == |headers|
  {
    seq(|headers|, i requires 0 <= i < |headers| => Column(headers[i]))
  }

  /** The placeholders `$1`, ..., `$n`. */
  function Placeholders(n: nat): (ps: seq<Item>)
    ensures |ps| == n
  {
    seq(n, i requires 0 <= i < n => Param(i + 1))
  }

  /** The statement text shared by every row. */
  function InsertTemplate(table: string, headers: seq<string>): string {
    InsertPrefix + QuoteIdent(table) + " (" + Join(ListSep, RenderAll(Columns(headers)))
      + ValuesInfix + Join(ListSep, RenderAll(Placeholders(|headers|))) + ")"
  }

  /** Parse an INSERT statement into its table name, column list and value list. */
  function ReadInsert(sql: string): Option<(string, seq<Item>, seq<Item>)> {
    if |sql| < |InsertPrefix| || sql[..|InsertPrefix|] != InsertPrefix then None
    else
      match ReadIdent(sql[|InsertPrefix|..])
      case None => None
      case Some((table, r)) =>
        if |r| < 2 || r[..2] != " (" then None
        else
          match ReadColumnsAndValues(r[2..])
          case None => None
          case Some((cols, ps)) => Some((table, cols, ps))
  }

  /** Parse `<columns>) VALUES (<values>)`, the part of an INSERT after its first parenthesis. */
  function ReadColumnsAndValues(t: string): Option<(seq<Item>, seq<Item>)> {
    match ReadList(ColumnItem, t)
    case None => None
    case Some((cols, r)) =>
      if |r| < |ValuesInfix| || r[..|ValuesInfix|] != ValuesInfix then None
      else
        match ReadList(ParamItem, r[|ValuesInfix|..])
        case None => None
        case Some((ps, r')) => if r' == ")" then Some((cols, ps)) else None
  }

  lemma ReadColumnsAndValuesFrame(cols: string, ps: string, colItems: seq<Item>, psItems: seq<Item>)
    requires ReadList(ColumnItem, cols + (ValuesInfix + ps + ")")) == Some((colItems, ValuesInfix + ps + ")"))
    requires ReadList(ParamItem, ps + ")") == Some((psItems, ")"))
    ensures ReadColumnsAndValues(cols + (ValuesInfix + ps + ")")) == Some((colItems, psItems))
  {
    var tail := ValuesInfix + ps + ")";
    assert tail[..|ValuesInfix|] == ValuesInfix;
    assert tail[|ValuesInfix|..] == ps + ")";
  }

  lemma ReadInsertFrame(table: string, body: string, colItems: seq<Item>, psItems: seq<Item>)
    requires ReadColumnsAndValues(body) == Some((colItems, psItems))
    ensures ReadInsert(InsertPrefix + QuoteIdent(table) + " (" + body) == Some((table, colItems, psItems))
  {
    var rest := " (" + body;
    var sql := InsertPrefix + QuoteIdent(table) + " (" + body;
    assert sql == InsertPrefix + (QuoteIdent(table) + rest);
    assert sql[..|InsertPrefix|] == InsertPrefix;
    assert sql[|InsertPrefix|..] == QuoteIdent(table) + rest;
    ReadIdentQuoteIdent(table, rest);
    assert rest[..2] == " (";
    assert rest[2..] == body;
  }

  /** The template names exactly the given table and, in header order, exactly the
      headers as its columns, whatever characters they contain, and binds them to
      `$1`, ..., `$n`, one placeholder per header. */
  lemma InsertTemplateReadBack(table: string, headers: seq<string>)
    requires |headers| > 0
    ensures ReadInsert(InsertTemplate(table, headers)) == Some((table, Columns(headers), Placeholders(|headers|)))
  {
    var cols := Join(ListSep, RenderAll(Columns(headers)));
    var ps := Join(ListSep, RenderAll(Placeholders(|headers|)));
    var body := cols + (ValuesInfix + ps + ")");
    ReadListJoin(ColumnItem, Columns(headers), ValuesInfix + ps + ")");
    ReadListJoin(ParamItem, Placeholders(|headers|), ")");
    ReadColumnsAndValuesFrame(cols, ps, Columns(headers), Placeholders(|headers|));
    ReadInsertFrame(table, body, Columns(headers), Placeholders(|headers|));
    InsertTemplateShape(table, headers);
  }

  lemma InsertTemplateShape(table: string, headers: seq<string>)
    ensures InsertTemplate(table, headers)
         == InsertPrefix + QuoteIdent(table) + " ("
            + (Join(ListSep, RenderAll(Columns(headers))) + (ValuesInfix + Join(ListSep, RenderAll(Placeholders(|headers|))) + ")"))
  {
  }

  /** The arguments bound for one row: its first n cells when it has at least n = |headers|
      cells, and no arguments at all when it is shorter. */
  function ArgsFor(headers: seq<string>, row: seq<string>): seq<Arg> {
    if |row| >= |headers| then seq(|headers|, i requires 0 <= i < |headers| => Value(row[i])) else []
  }

  /** The argument loop as written: start from n nil arguments, fill cell i while the row
      has one, and drop the whole list once the row runs out. A short row therefore gets
      no arguments at all rather than nil padding. */
  method RowArgs(headers: seq<string>, row: seq<string>) returns (args: seq<Arg>)
    ensures |row| >= |headers| ==> |args| == |headers| && forall i :: 0 <= i < |headers| ==> args[i] == Value(row[i])
    ensures |row| < |headers| ==> args == []
    ensures args == ArgsFor(headers, row)
  {
    args := seq(|headers|, _ => Nil);
    var i := 0;
    while i < |headers|
      invariant i <= |headers|
      invariant i <= |row| ==> |args| == |headers|
      invariant i <= |row| ==> forall k :: 0 <= k < i ==> args[k] == Value(row[k])
      invariant i > |row| ==> args == []
    {
      if i < |row| {
        args := args[i := Value(row[i])];
      } else {
        args := [];
      }
      i := i + 1;
    }
  }

  /** A row binds as many values as the template has placeholders exactly when it is at
      least as wide as the header; a short row binds none (an arity mismatch for any
      non-empty header), and a nil argument never reaches the database. */
  lemma ArgsArity(headers: seq<string>, row: seq<string>)
    requires |headers| > 0
    ensures |ArgsFor(headers, row)| == |Placeholders(|headers|)| <==> |row| >= |headers|
    ensures |row| < |headers| ==> ArgsFor(headers, row) == []
    ensures forall a :: a in ArgsFor(headers, row) ==> a.Value?
  {
  }

  /** Execute the template once per row, in order, until the database rejects one. */
  function InsertEach(db: Oracle, history: seq<Statement>, template: string, headers: seq<string>, rows: seq<seq<string>>): (r: Run)
    ensures |history| <= |r.trace| <= |history| + |rows|
    ensures r.outcome.Fail? ==> r.outcome.error == InsertFailed && |r.trace| > |history|
    decreases |rows|
  {
    if |rows| == 0 then Run(history, Pass)
    else
      var st := Statement(template, ArgsFor(headers, rows[0]));
      if !db(history, st) then Run(history + [st], Fail(InsertFailed))
      else InsertEach(db, history + [st], template, headers, rows[1..])
  }

  /** The statements of a load, in order: the history, then one statement per attempted
      row, each being the shared template with that row's arguments. */
  lemma {:induction false} InsertEachTrace(db: Oracle, history: seq<Statement>, template: string, headers: seq<string>, rows: seq<seq<string>>)
    ensures var r := InsertEach(db, history, template, headers, rows);
      && r.trace[..|history|] == history
      && forall k :: |history| <= k < |r.trace| ==>
           r.trace[k] == Statement(template, ArgsFor(headers, rows[k - |history|]))
    decreases |rows|
  {
    if |rows| > 0 {
      var st := Statement(template, ArgsFor(headers, rows[0]));
      if db(history, st) {
        var h := history + [st];
        InsertEachTrace(db, h, template, headers, rows[1..]);
        var r := InsertEach(db, h, template, headers, rows[1..]);
        assert r.trace[..|history|] == r.trace[..|h|][..|history|];
        assert r.trace[|history|] == r.trace[..|h|][|history|];
        forall k | |h| <= k < |r.trace|
          ensures r.trace[k] == Statement(template, ArgsFor(headers, rows[k - |history|]))
        {
          assert rows[1..][k - |h|] == rows[k - |history|];
        }
      }
    }
  }

  /** How a load ends: when it passes every row was executed and accepted; when it fails
      the last statement is the one the database rejected and every earlier row of the
      load was accepted, so the rows after the failing one are never attempted. */
  lemma {:induction false} InsertEachOutcome(db: Oracle, history: seq<Statement>, template: string, headers: seq<string>, rows: seq<seq<string>>)
    ensures var r := InsertEach(db, history, template, headers, rows);
      && (r.outcome.Pass? ==> |r.trace| == |history| + |rows| && AcceptedFrom(db, r.trace, |history|))
      && (r.outcome.Fail? ==>
            && AcceptedFrom(db, r.trace[..|r.trace| - 1], |history|)
            && !db(r.trace[..|r.trace| - 1], r.trace[|r.trace| - 1]))
    decreases |rows|
  {
    if |rows| > 0 {
      var st := Statement(template, ArgsFor(headers, rows[0]));
      if db(history, st) {
        var h := history + [st];
        InsertEachOutcome(db, h, template, headers, rows[1..]);
        InsertEachTrace(db, h, template, headers, rows[1..]);
        var r := InsertEach(db, h, template, headers, rows[1..]);
        assert r.trace[..|history|] == history by {
          assert r.trace[..|history|] == r.trace[..|h|][..|history|];
        }
        assert r.trace[|history|] == st by {
          assert r.trace[|history|] == r.trace[..|h|][|history|];
        }
        if r.outcome.Pass? {
          assert db(r.trace[..|history|], r.trace[|history|]);
        } else {
          var t := r.trace[..|r.trace| - 1];
          assert t[..|history|] == history;
          assert t[|history|] == st;
          assert db(t[..|history|], t[|history|]);
          forall k | |history| <= k < |t| ensures db(t[..k], t[k]) {
            if k == |history| {
              assert db(t[..|history|], t[|history|]);
            }
          }
        }
      } else {
        var r := InsertEach(db, history, template, headers, rows);
        assert r.trace[..|r.trace| - 1] == history;
      }
    }
  }

  /** insertRows: nothing at all for zero rows; otherwise statement k of the load is the
      shared template with row k's arguments, rows run in file order, every row is
      executed when all succeed, and on failure the rows before the failing one stay
      executed and the rows after it are never attempted. */
  function InsertRows(db: Oracle, history: seq<Statement>, table: string, headers: seq<string>, rows: seq<seq<string>>): (r: Run)
    ensures |rows| == 0 ==> r == Run(history, Pass)
    ensures |history| <= |r.trace| <= |history| + |rows|
    ensures r.trace[..|history|] == history
    ensures forall k :: |history| <= k < |r.trace| ==>
      r.trace[k] == Statement(InsertTemplate(table, headers), ArgsFor(headers, rows[k - |history|]))
    ensures r.outcome.Pass? ==> |r.trace| == |history| + |rows| && AcceptedFrom(db, r.trace, |history|)
    ensures r.outcome.Fail? ==>
      && r.outcome.error == InsertFailed
      && |r.trace| > |history|
      && AcceptedFrom(db, r.trace[..|r.trace| - 1], |history|)
      && !db(r.trace[..|r.trace| - 1], r.trace[|r.trace| - 1])
  {
    if |rows| == 0 then Run(history, Pass)
    else
      var template := InsertTemplate(table, headers);
      InsertEachTrace(db, history, template, headers, rows);
      InsertEachOutcome(db, history, template, headers, rows);
      InsertEach(db, history, template, headers, rows)
  }

  /** A load after one accepted statement that fails stops at its one rejected statement:
      everything before it, the earlier statement included, was accepted. */
  lemma InsertRowsStopAfterOne(db: Oracle, history: seq<Statement>, table: string, headers: seq<string>, rows: seq<seq<string>>)
    requires |history| == 1 && db([], history[0])
    ensures var r := InsertRows(db, history, table, headers, rows);
      r.outcome.Fail? ==> StopsAtRejection(db, r.trace)
  {
    var r := InsertRows(db, history, table, headers, rows);
    if r.outcome.Fail? {
      var prefix := r.trace[..|r.trace| - 1];
      assert prefix[..0] == [];
      assert prefix[0] == r.trace[..1][0] == history[0];
      AcceptedFromStep(db, prefix, 0);
    }
  }

  /** InsertRows after a single earlier statement: statement k is bound to row k - 1. */
  lemma InsertRowsAfterOne(db: Oracle, first: Statement, table: string, headers: seq<string>, rows: seq<seq<string>>)
    ensures var r := InsertRows(db, [first], table, headers, rows);
      && |r.trace| <= 1 + |rows|
      && forall k :: 1 <= k < |r.trace| ==>
           r.trace[k] == Statement(InsertTemplate(table, headers), ArgsFor(headers, rows[k - 1]))
  {
  }
}

=== FILE: outcomes.dfy ===
/** Failure-carrying values shared by every stage of the upload pipeline, and the
    mapping from failure kinds to the HTTP status the handler intends to send. */
module Outcomes {

  datatype Option<+T> = None | Some(value: T)

  /** One kind per error return of the upload handler and its helpers. */
  datatype ErrorKind =
    | WrongMethod        // request method is not POST
    | BadForm            // multipart body unparsable, or no "file" field
    | UnsupportedFormat  // extension is neither ".csv" nor ".xlsx"
    | CsvUnreadable      // the delimited-text reader reported an error
    | TooFewRecords      // fewer than two delimited-text records
    | XlsxUnopenable     // the workbook could not be opened
    | NoSheets           // the workbook has no first sheet
    | RowsUnreadable     // the sheet's rows (or one of them) could not be read
    | NoHeaders          // the sheet's header row is empty or missing
    | NoColumns          // a CREATE TABLE was requested for zero columns
    | CreateFailed       // the database rejected the CREATE TABLE
    | InsertFailed       // the database rejected one of the INSERTs

  datatype Result<+T> = Ok(value: T) | Err(error: ErrorKind)

  /** A result without a value: what a step returning only `error` yields. */
  datatype Outcome = Pass | Fail(error: ErrorKind)

  /** Errors raised while creating the table or loading rows are server errors. */
  predicate IsServerError(k: ErrorKind) {
    k == NoColumns || k == CreateFailed || k == InsertFailed
  }

  /** The status code the handler passes to http.Error for each kind. */
  function StatusCode(k: ErrorKind): nat {
    if k == WrongMethod then 405
    else if IsServerError(k) then 500
    else 400
  }
}

=== FILE: quoting.dfy ===
/** Double-quoted SQL identifiers: the quoting the handler applies to every table and
    column name, its inverse, and how an SQL lexer reads a quoted identifier back. */
module Quoting {
  import opened Outcomes

  const Quote: char := '"'

  /** Number of double-quote characters in `s`. */
  function QuoteCount(s: string): nat {
    if |s| == 0 then 0 else (if s[0] == Quote then 1 else 0) + QuoteCount(s[1..])
  }

  /** `s` with every double quote doubled and every other character kept. */
  function Escape(s: string): (r: string)
    ensures |r| == |s| + QuoteCount(s)
  {
    if |s| == 0 then ""
    else (if s[0] == Quote then [Quote, Quote] else [s[0]]) + Escape(s[1..])
  }

  /** Escaping leaves a string without double quotes untouched. */
  lemma {:induction false} EscapeQuoteFree(s: string)
    ensures QuoteCount(s) == 0 ==> Escape(s) == s
  {
    if |s| > 0 && QuoteCount(s) == 0 {
      EscapeQuoteFree(s[1..]);
      assert s == [s[0]] + s[1..];
    }
  }

  /** quoteIdent: escape the name, then wrap it in double quotes. */
  function QuoteIdent(s: string): (r: string)
    ensures |r| == |s| + 2 + QuoteCount(s)
    ensures r[0] == Quote && r[|r| - 1] == Quote
    ensures QuoteCount(s) == 0 ==> r == [Quote] + s + [Quote]
  {
    EscapeQuoteFree(s);
    [Quote] + Escape(s) + [Quote]
  }

  /** The inverse of Escape: collapse each doubled quote, refuse a lone one. */
  function Unescape(t: string): Option<string> {
    if |t| == 0 then Some("")
    else if t[0] == Quote then
      if |t| >= 2 && t[1] == Quote then
        match Unescape(t[2..])
        case None => None
        case Some(u) => Some([Quote] + u)
      else None
    else
      match Unescape(t[1..])
      case None => None
      case Some(u) => Some([t[0]] + u)
  }

  /** Strip the outer quotes of an identifier and unescape what is inside. */
  function Unquote(q: string): Option<string> {
    if |q| >= 2 && q[0] == Quote && q[|q| - 1] == Quote then Unescape(q[1..|q| - 1]) else None
  }

  /** Unescaping undoes escaping: the escaped text has no lone double quote. */
  lemma {:induction false} UnescapeEscape(s: string)
    ensures Unescape(Escape(s)) == Some(s)
  {
    if |s| > 0 {
      var e := Escape(s);
      UnescapeEscape(s[1..]);
      if s[0] == Quote {
        assert e[2..] == Escape(s[1..]);
      } else {
        assert e[1..] == Escape(s[1..]);
      }
      assert s == [s[0]] + s[1..];
    }
  }

  /** Escaping undoes unescaping: Escape is a bijection onto the texts Unescape accepts. */
  lemma {:induction false} EscapeUnescape(t: string, s: string)
    requires Unescape(t) == Some(s)
    ensures Escape(s) == t
  {
    if |t| > 0 {
      if t[0] == Quote {
        EscapeUnescape(t[2..], s[1..]);
        assert t == [Quote, Quote] + t[2..];
      } else {
        EscapeUnescape(t[1..], s[1..]);
        assert t == [t[0]] + t[1..];
      }
    }
  }

  /** Unquoting a quoted identifier gives back the raw name. */
  lemma UnquoteQuoteIdent(s: string)
    ensures Unquote(QuoteIdent(s)) == Some(s)
  {
    var q := QuoteIdent(s);
    assert q[1..|q| - 1] == Escape(s);
    UnescapeEscape(s);
  }

  /** Distinct names never collide once quoted. */
  lemma QuoteIdentInjective(a: string, b: string)
    requires QuoteIdent(a) == QuoteIdent(b)
    ensures a == b
  {
    UnquoteQuoteIdent(a);
    UnquoteQuoteIdent(b);
  }

  /** How an SQL lexer reads the rest of a quoted identifier after its opening quote:
      a doubled quote stands for one quote, a single quote ends the identifier. The
      result is the identifier's name and the text after the closing quote. */
  function ReadQuotedBody(t: string): (res: Option<(string, string)>)
    ensures res.Some? ==> |res.value.1| < |t|
  {
    if |t| == 0 then None
    else if t[0] == Quote then
      if |t| >= 2 && t[1] == Quote then
        match ReadQuotedBody(t[2..])
        case None => None
        case Some((n, r)) => Some(([Quote] + n, r))
      else Some(("", t[1..]))
    else
      match ReadQuotedBody(t[1..])
      case None => None
      case Some((n, r)) => Some(([t[0]] + n, r))
  }

  /** Read one quoted identifier at the start of `t`. */
  function ReadIdent(t: string): (res: Option<(string, string)>)
    ensures res.Some? ==> |res.value.1| < |t|
  {
    if |t| > 0 && t[0] == Quote then ReadQuotedBody(t[1..]) else None
  }

  lemma {:induction false} ReadQuotedBodyEscape(s: string, rest: string)
    requires |rest| == 0 || rest[0] != Quote
    ensures ReadQuotedBody(Escape(s) + [Quote] + rest) == Some((s, rest))
  {
    var t := Escape(s) + [Quote] + rest;
    if |s| == 0 {
      assert t == [Quote] + rest;
      assert t[1..] == rest;
    } else {
      ReadQuotedBodyEscape(s[1..], rest);
      if s[0] == Quote {
        assert t == [Quote, Quote] + (Escape(s[1..]) + [Quote] + rest);
        assert t[2..] == Escape(s[1..]) + [Quote] + rest;
      } else {
        assert t == [s[0]] + (Escape(s[1..]) + [Quote] + rest);
        assert t[1..] == Escape(s[1..]) + [Quote] + rest;
      }
      assert s == [s[0]] + s[1..];
    }
  }

  /** A quoted identifier cannot end early: whatever the name contains, a lexer reading
      the quoted form followed by any text that does not itself start with a quote
      recovers exactly the name and stops exactly at the end of the quoted form. */
  lemma ReadIdentQuoteIdent(s: string, rest: string)
    requires |rest| == 0 || rest[0] != Quote
    ensures ReadIdent(QuoteIdent(s) + rest) == Some((s, rest))
  {
    var t := QuoteIdent(s) + rest;
    assert t == [Quote] + (Escape(s) + [Quote] + rest);
    assert t[1..] == Escape(s) + [Quote] + rest;
    ReadQuotedBodyEscape(s, rest);
  }
}

=== FILE: schema.dfy ===
/** createTable: one CREATE TABLE IF NOT EXISTS statement declaring every header, in
    header order, with its inferred type. */
module Schema {
  import opened Outcomes
  import opened Quoting
  import opened SqlText
  import opened Database

  const CreatePrefix := "CREATE TABLE IF NOT EXISTS "

  /** An unset type is declared VARCHAR. */
  function EffectiveType(ty: string): string {
    if ty == "" then Varchar else ty
  }

  /** The column definitions of the statement: header i with type i. */
  function ColumnDefs(headers: seq<string>, types: seq<string>): (defs: seq<Item>)
    requires |types| >= |headers|
    ensures |defs| == |headers|
  {
    seq(|headers|, i requires 0 <= i < |headers| => Typed(headers[i], EffectiveType(types[i])))
  }

  /** The DDL text; there is none for an empty header list. */
  function CreateTableSql(table: string, headers: seq<string>, types: seq<string>): (r: Result<string>)
    requires |types| >= |headers|
    ensures r.Err? <==> |headers| == 0
    ensures r.Err? ==> r.error == NoColumns
  {
    if |headers| == 0 then Err(NoColumns)
    else Ok(CreatePrefix + QuoteIdent(table) + " (" + Join(ListSep, RenderAll(ColumnDefs(headers, types))) + ")")
  }

  /** Parse a CREATE TABLE IF NOT EXISTS statement into its table name and column definitions. */
  function ReadCreateTable(sql: string): Option<(string, seq<Item>)> {
    if |sql| < |CreatePrefix| || sql[..|CreatePrefix|] != CreatePrefix then None
    else
      match ReadIdent(sql[|CreatePrefix|..])
      case None => None
      case Some((table, r)) =>
        if |r| < 2 || r[..2] != " (" then None
        else
          match ReadList(TypedItem, r[2..])
          case None => None
          case Some((defs, r')) => if r' == ")" then Some((table, defs)) else None
  }

  /** Every type is unset or an upper-case word, as the inference produces. */
  predicate TypesReadable(types: seq<string>) {
    forall i :: 0 <= i < |types| ==> types[i] == "" || IsTypeWord(types[i])
  }

  lemma ReadCreateFrame(table: string, list: string, defs: seq<Item>)
    requires ReadList(TypedItem, list + ")") == Some((defs, ")"))
    ensures ReadCreateTable(CreatePrefix + QuoteIdent(table) + " (" + list + ")") == Some((table, defs))
  {
    var body := " (" + list + ")";
    var sql := CreatePrefix + QuoteIdent(table) + " (" + list + ")";
    assert sql == CreatePrefix + (QuoteIdent(table) + body);
    assert sql[..|CreatePrefix|] == CreatePrefix;
    assert sql[|CreatePrefix|..] == QuoteIdent(table) + body;
    ReadIdentQuoteIdent(table, body);
    assert body[..2] == " (";
    assert body[2..] == list + ")";
  }

  lemma ColumnDefsReadable(headers: seq<string>, types: seq<string>)
    requires |types| >= |headers|
    requires TypesReadable(types)
    ensures forall i :: 0 <= i < |headers| ==> Readable(ColumnDefs(headers, types)[i], TypedItem)
  {
    forall i | 0 <= i < |headers| ensures Readable(ColumnDefs(headers, types)[i], TypedItem) {
      assert types[i] == "" || IsTypeWord(types[i]);
      assert IsTypeWord(Varchar) by {
        assert forall k :: 0 <= k < |Varchar| ==> IsTypeChar(Varchar[k]);
      }
    }
  }

  /** The DDL declares exactly the given table and, in header order, exactly the headers
      with their types (unset ones as VARCHAR), whatever characters the names contain:
      no name can end its identifier early or inject another column. */
  lemma CreateTableReadBack(table: string, headers: seq<string>, types: seq<string>)
    requires |types| >= |headers| > 0
    requires TypesReadable(types)
    ensures ReadCreateTable(CreateTableSql(table, headers, types).value)
         == Some((table, ColumnDefs(headers, types)))
  {
    var defs := ColumnDefs(headers, types);
    var list := Join(ListSep, RenderAll(defs));
    ColumnDefsReadable(headers, types);
    ReadListJoin(TypedItem, defs, ")");
    ReadCreateFrame(table, list, defs);
  }

  /** createTable: no statement at all for an empty header list; otherwise exactly one
      statement, without arguments, whose text is the DDL, and the step fails exactly
      when the database rejects it. */
  function CreateTable(db: Oracle, history: seq<Statement>, table: string, headers: seq<string>, types: seq<string>): (r: Run)
    requires |types| >= |headers|
    ensures |headers| == 0 ==> r == Run(history, Fail(NoColumns))
    ensures |headers| > 0 ==>
      && |r.trace| == |history| + 1
      && r.trace[..|history|] == history
      && r.trace[|history|] == Statement(CreateTableSql(table, headers, types).value, [])
      && (r.outcome.Pass? <==> db(history, r.trace[|history|]))
    ensures r.outcome.Fail? ==> r.outcome.error == (if |headers| == 0 then NoColumns else CreateFailed)
  {
    match CreateTableSql(table, headers, types)
    case Err(e) => Run(history, Fail(e))
    case Ok(sql) =>
      var st := Statement(sql, []);
      Run(history + [st], if db(history, st) then Pass else Fail(CreateFailed))
  }
}

=== FILE: sql_text.dfy ===
/** The pieces the generated statements are built from: comma-separated lists of
    quoted columns, typed column definitions or positional parameters, together with a
    reader that parses such a list back. */
module SqlText {
  import opened Outcomes
  import opened Text
  import opened Quoting

  /** Go's strings.Join. */
  function Join(sep: string, parts: seq<string>): string {
    if |parts| == 0 then ""
    else if |parts| == 1 then parts[0]
    else parts[0] + sep + Join(sep, parts[1..])
  }

  const ListSep := ", "

  /** The two column types the inference emits. */
  const Numeric := "NUMERIC"
  const Varchar := "VARCHAR"

  predicate IsTypeChar(c: char) {
    'A' <= c <= 'Z'
  }

  /** A column type a reader can delimit: a non-empty upper-case word. */
  predicate IsTypeWord(w: string) {
    |w| > 0 && All(IsTypeChar, w)
  }

  /** One element of a list: a column name, a column definition, or a `$n` placeholder. */
  datatype Item = Column(name: string) | Typed(name: string, sqlType: string) | Param(position: nat)

  datatype ItemKind = ColumnItem | TypedItem | ParamItem

  function Render(it: Item): string {
    match it
    case Column(n) => QuoteIdent(n)
    case Typed(n, ty) => QuoteIdent(n) + " " + ty
    case Param(k) => "$" + Decimal(k)
  }

  function RenderAll(items: seq<Item>): (r: seq<string>)
    ensures |r| == |items|
  {
    if |items| == 0 then [] else [Render(items[0])] + RenderAll(items[1..])
  }

  /** The items a reader of the given kind gives back unchanged. */
  predicate Readable(it: Item, kind: ItemKind) {
    match it
    case Column(_) => kind == ColumnItem
    case Typed(_, ty) => kind == TypedItem && IsTypeWord(ty)
    case Param(_) => kind == ParamItem
  }

  /** Read one item of the given kind at the start of `t`; the rest of `t` comes back with it. */
  function ReadItem(kind: ItemKind, t: string): (res: Option<(Item, string)>)
    ensures res.Some? ==> |res.value.1| < |t|
  {
    match kind
    case ColumnItem =>
      (match ReadIdent(t)
       case None => None
       case Some((n, r)) => Some((Column(n), r)))
    case TypedItem =>
      (match ReadIdent(t)
       case None => None
       case Some((n, r)) =>
         if |r| > 0 && r[0] == ' ' then
           var w := Span(IsTypeChar, r[1..]);
           if w > 0 then Some((Typed(n, r[1..1 + w]), r[1 + w..])) else None
         else None)
    case ParamItem =>
      if |t| > 0 && t[0] == '$' then
        var d := Span(IsDigit, t[1..]);
        assert t[1..1 + d] == t[1..][..d];
        if d > 0 then Some((Param(DigitsValue(t[1..1 + d])), t[1 + d..])) else None
      else None
  }

  /** Read a non-empty list of items separated by ", ". */
  function ReadList(kind: ItemKind, t: string): (res: Option<(seq<Item>, string)>)
    ensures res.Some? ==> |res.value.1| < |t|
    decreases |t|
  {
    match ReadItem(kind, t)
    case None => None
    case Some((it, r)) =>
      if |r| >= 2 && r[0] == ',' && r[1] == ' ' then
        match ReadList(kind, r[2..])
        case None => None
        case Some((more, r')) => Some(([it] + more, r'))
      else Some(([it], r))
  }

  lemma ReadTypedRender(n: string, ty: string, rest: string)
    requires IsTypeWord(ty)
    requires |rest| > 0 && (rest[0] == ',' || rest[0] == ')')
    ensures ReadItem(TypedItem, QuoteIdent(n) + " " + ty + rest) == Some((Typed(n, ty), rest))
  {
    var tail := " " + ty + rest;
    assert QuoteIdent(n) + " " + ty + rest == QuoteIdent(n) + tail;
    ReadIdentQuoteIdent(n, tail);
    var r := tail[1..];
    assert r == ty + rest;
    SpanOfRun(IsTypeChar, ty, rest);
    assert r[..|ty|] == ty;
    assert r[|ty|..] == rest;
  }

  lemma ReadParamRender(k: nat, rest: string)
    requires |rest| > 0 && (rest[0] == ',' || rest[0] == ')')
    ensures ReadItem(ParamItem, "$" + Decimal(k) + rest) == Some((Param(k), rest))
  {
    var t := "$" + Decimal(k) + rest;
    var digits := Decimal(k);
    assert t[1..] == digits + rest;
    SpanOfRun(IsDigit, digits, rest);
    assert t[1..1 + |digits|] == digits;
    assert t[1 + |digits|..] == rest;
    DecimalValue(k);
  }

  /** A rendered item followed by a list separator or a closing parenthesis reads back as itself. */
  lemma ReadItemRender(kind: ItemKind, it: Item, rest: string)
    requires Readable(it, kind)
    requires |rest| > 0 && (rest[0] == ',' || rest[0] == ')')
    ensures ReadItem(kind, Render(it) + rest) == Some((it, rest))
  {
    match it
    case Column(n) => ReadIdentQuoteIdent(n, rest);
    case Typed(n, ty) => ReadTypedRender(n, ty, rest);
    case Param(k) => ReadParamRender(k, rest);
  }

  /** One step of the list reader: an item, the separator, and a readable remainder. */
  lemma ReadListStep(kind: ItemKind, it: Item, tail: string, more: seq<Item>, rest: string)
    requires ReadItem(kind, Render(it) + (ListSep + tail)) == Some((it, ListSep + tail))
    requires ReadList(kind, tail) == Some((more, rest))
    ensures ReadList(kind, Render(it) + (ListSep + tail)) == Some(([it] + more, rest))
  {
    assert (ListSep + tail)[2..] == tail;
  }

  /** A non-empty list rendered with ", " between its items and followed by a closing
      parenthesis reads back as the same items in the same order. */
  lemma {:induction false} ReadListJoin(kind: ItemKind, items: seq<Item>, rest: string)
    requires |items| > 0
    requires forall i :: 0 <= i < |items| ==> Readable(items[i], kind)
    requires |rest| > 0 && rest[0] == ')'
    ensures ReadList(kind, Join(ListSep, RenderAll(items)) + rest) == Some((items, rest))
  {
    var parts := RenderAll(items);
    if |items| == 1 {
      ReadItemRender(kind, items[0], rest);
      assert items == [items[0]];
    } else {
      var more := items[1..];
      assert parts[1..] == RenderAll(more);
      var tail := Join(ListSep, RenderAll(more)) + rest;
      assert Join(ListSep, parts) + rest == Render(items[0]) + (ListSep + tail);
      ReadItemRender(kind, items[0], ListSep + tail);
      ReadListJoin(kind, more, rest);
      ReadListStep(kind, items[0], tail, more, rest);
      assert items == [items[0]] + more;
    }
  }
}

=== FILE: tabular.dfy ===
/** The two tabular adapters, reduced to what the handler does with the decoders'
    output: the file extension that selects one, the CSV header/data split, and the
    XLSX row walk of readXLSX. */
module Tabular {
  import opened Outcomes
  import opened Dataset

  /** Go's filepath.Ext on a slash-separated path: the suffix from the last '.' of the
      final path element, or "" when that element has no '.'. Scans positions below `i`. */
  function ExtBelow(name: string, i: nat): (r: string)
    requires i <= |name|
    ensures r != "" ==>
      && |r| <= |name| && r == name[|name| - |r|..]
      && r[0] == '.'
      && |name| - |r| < i
      && forall k :: |name| - |r| < k < i ==> name[k] != '.' && name[k] != '/'
    ensures r == "" ==> forall k :: 0 <= k < i && name[k] == '.' ==> exists j :: k < j < i && name[j] == '/'
  {
    if i == 0 then ""
    else if name[i - 1] == '/' then ""
    else if name[i - 1] == '.' then name[i - 1..]
    else ExtBelow(name, i - 1)
  }

  /** The extension of a file name: what follows its last '.', the dot included, provided
      no '/' comes after that dot. */
  function Ext(name: string): (r: string)
    ensures r != "" ==>
      && |r| <= |name| && r == name[|name| - |r|..]
      && r[0] == '.'
      && forall k :: 1 <= k < |r| ==> r[k] != '.' && r[k] != '/'
    ensures r == "" ==> forall k :: 0 <= k < |name| && name[k] == '.' ==> exists j :: k < j < |name| && name[j] == '/'
  {
    var r := ExtBelow(name, |name|);
    assert r != "" ==> forall k :: 1 <= k < |r| ==> r[k] == name[|name| - |r| + k];
    r
  }

  /** The field-count rule of encoding/csv with FieldsPerRecord left at 0: every record
      has as many fields as the first one, or ReadAll reports an error. */
  predicate SameWidth(records: seq<Row>) {
    forall k :: 0 <= k < |records| ==> |records[k]| == |records[0]|
  }

  /** The CSV branch: at least a header record and one data record; the first record is
      the header row and the remaining records, unchanged and in order, the data rows. */
  function SplitCsv(records: seq<Row>): (r: Result<Table>)
    ensures r.Ok? <==> |records| >= 2
    ensures r.Err? ==> r.error == TooFewRecords
    ensures r.Ok? ==> [r.value.headers] + r.value.rows == records && |r.value.rows| >= 1
  {
    if |records| < 2 then Err(TooFewRecords)
    else
      assert [records[0]] + records[1..] == records;
      Ok(Table(records[0], records[1..]))
  }

  /** The CSV branch: the tokenizer's records, or its syntax error, pass the field-count
      rule before the header/data split. */
  function ReadCsv(records: Option<seq<Row>>): (r: Result<Table>)
    ensures records.None? ==> r == Err(CsvUnreadable)
    ensures records.Some? && !SameWidth(records.value) ==> r == Err(CsvUnreadable)
    ensures records.Some? && SameWidth(records.value) ==> r == SplitCsv(records.value)
    ensures r.Err? ==> r.error in {CsvUnreadable, TooFewRecords}
  {
    match records
    case None => Err(CsvUnreadable)
    case Some(rs) => if SameWidth(rs) then SplitCsv(rs) else Err(CsvUnreadable)
  }

  /** What the workbook decoder yields for the uploaded bytes: nothing when the file does
      not open; otherwise the sheet names in order and, for the first sheet, either no
      row iterator or the sequence of rows it produces, each read or failed. */
  datatype Workbook =
    | Unopenable
    | Opened(sheetNames: seq<string>, firstSheet: Option<seq<Option<Row>>>)

  /** GetSheetName(0): the first sheet's name, or "" when there is none. */
  function FirstSheetName(names: seq<string>): string {
    if |names| == 0 then "" else names[0]
  }

  /** Every row of the sheet was read. */
  predicate AllRead(items: seq<Option<Row>>) {
    forall k :: 0 <= k < |items| ==> items[k].Some?
  }

  /** The header and data rows of a fully read sheet: row 0 is the header (none when the
      sheet is empty) and every later row, in sheet order, is a data row. An unreadable
      row makes the whole sheet unreadable. */
  function SheetRows(items: seq<Option<Row>>): (r: Result<Table>)
    ensures r.Ok? <==> AllRead(items)
    ensures r.Err? ==> r.error == RowsUnreadable
    ensures r.Ok? && |items| == 0 ==> r.value == Table([], [])
    ensures r.Ok? && |items| > 0 ==>
      && r.value.headers == items[0].value
      && |r.value.rows| == |items| - 1
      && forall k :: 0 <= k < |r.value.rows| ==> r.value.rows[k] == items[k + 1].value
  {
    if !AllRead(items) then Err(RowsUnreadable)
    else if |items| == 0 then Ok(Table([], []))
    else Ok(Table(items[0].value, seq(|items| - 1, k requires 0 <= k < |items| - 1 => items[k + 1].value)))
  }

  /** The row loop of readXLSX as written: the row at index 0 becomes the header, every
      later row is appended, and the first unreadable row aborts the walk. */
  method WalkRows(items: seq<Option<Row>>) returns (r: Result<Table>)
    ensures r == SheetRows(items)
  {
    var headers: Row := [];
    var rows: seq<Row> := [];
    var rowIndex := 0;
    while rowIndex < |items|
      invariant rowIndex <= |items|
      invariant forall j :: 0 <= j < rowIndex ==> items[j].Some?
      invariant rowIndex == 0 ==> headers == [] && rows == []
      invariant rowIndex > 0 ==> headers == items[0].value && |rows| == rowIndex - 1
      invariant forall j :: 0 <= j < |rows| ==> rows[j] == items[j + 1].value
    {
      match items[rowIndex]
      case None =>
        return Err(RowsUnreadable);
      case Some(row) =>
        if rowIndex == 0 {
          headers := row;
        } else {
          rows := rows + [row];
        }
        rowIndex := rowIndex + 1;
    }
    if |items| > 0 {
      assert rows == SheetRows(items).value.rows;
    }
    r := Ok(Table(headers, rows));
  }

  /** The row walk of readXLSX followed by its check that a header row was found. */
  function SplitSheet(items: seq<Option<Row>>): (r: Result<Table>)
    ensures r.Ok? <==> AllRead(items) && |items| > 0 && |items[0].value| > 0
    ensures r.Ok? ==>
      && r.value.headers == items[0].value
      && |r.value.rows| == |items| - 1
      && forall k :: 0 <= k < |r.value.rows| ==> r.value.rows[k] == items[k + 1].value
    ensures r.Err? ==> r.error == (if AllRead(items) then NoHeaders else RowsUnreadable)
  {
    match SheetRows(items)
    case Err(e) => Err(e)
    case Ok(t) => if |t.headers| == 0 then Err(NoHeaders) else Ok(t)
  }

  /** readXLSX: the header row is the sheet's first row and the data rows are all later
      rows in sheet order. It fails when the workbook does not open, has no first sheet,
      has no row iterator or an unreadable row, and otherwise exactly when the header row
      is missing or empty. */
  function ReadXlsx(book: Workbook): (r: Result<Table>)
    ensures r.Ok? <==>
      && book.Opened?
      && FirstSheetName(book.sheetNames) != ""
      && book.firstSheet.Some?
      && AllRead(book.firstSheet.value)
      && |book.firstSheet.value| > 0
      && |book.firstSheet.value[0].value| > 0
    ensures r.Ok? ==>
      var items := book.firstSheet.value;
      && r.value.headers == items[0].value
      && |r.value.rows| == |items| - 1
      && forall k :: 0 <= k < |r.value.rows| ==> r.value.rows[k] == items[k + 1].value
    ensures r.Err? && r.error == NoHeaders ==>
      book.Opened? && book.firstSheet.Some? && AllRead(book.firstSheet.value)
    ensures r.Err? ==> r.error in {XlsxUnopenable, NoSheets, RowsUnreadable, NoHeaders}
  {
    match book
    case Unopenable => Err(XlsxUnopenable)
    case Opened(names, sheet) =>
      if FirstSheetName(names) == "" then Err(NoSheets)
      else
        match sheet
        case None => Err(RowsUnreadable)
        case Some(items) => SplitSheet(items)
  }

  /** A first sheet holding only a non-empty header row is read successfully, with no
      data rows. */
  lemma HeaderOnlySheet(names: seq<string>, headers: Row)
    requires FirstSheetName(names) != "" && |headers| > 0
    ensures ReadXlsx(Opened(names, Some([Some(headers)]))) == Ok(Table(headers, []))
  {
  }
}

=== FILE: text.dfy ===
/** Character-level helpers: Go's whitespace trimming, the float syntax the type
    inference accepts, and decimal numerals. */
module Text {

  /** Whitespace as Go's unicode.IsSpace classifies it: the Latin-1 spaces and the
      remaining characters with the Unicode White_Space property. */
  predicate IsSpace(c: char) {
    || c == ' ' || c == '\t' || c == '\n' || c == '\U{000B}' || c == '\U{000C}' || c == '\r'
    || c == '\U{0085}' || c == '\U{00A0}' || c == '\U{1680}'
    || ('\U{2000}' <= c <= '\U{200A}')
    || c == '\U{2028}' || c == '\U{2029}' || c == '\U{202F}' || c == '\U{205F}' || c == '\U{3000}'
  }

  predicate IsDigit(c: char) {
    '0' <= c <= '9'
  }

  predicate All(p: char -> bool, s: string) {
    forall k :: 0 <= k < |s| ==> p(s[k])
  }

  /** Length of the longest prefix of `s` whose characters all satisfy `p`. */
  function Span(p: char -> bool, s: string): (n: nat)
    ensures n <= |s|
    ensures All(p, s[..n])
    ensures n == |s| || !p(s[n])
  {
    if |s| > 0 && p(s[0]) then 1 + Span(p, s[1..]) else 0
  }

  /** Length of the longest suffix of `s` whose characters all satisfy `p`. */
  function SpanEnd(p: char -> bool, s: string): (n: nat)
    ensures n <= |s|
    ensures All(p, s[|s| - n..])
    ensures n == |s| || !p(s[|s| - n - 1])
  {
    if |s| > 0 && p(s[|s| - 1]) then 1 + SpanEnd(p, s[..|s| - 1]) else 0
  }

  /** A run of `p`-characters followed by a character outside `p` (or nothing) spans exactly the run. */
  lemma SpanOfRun(p: char -> bool, run: string, rest: string)
    requires All(p, run)
    requires |rest| == 0 || !p(rest[0])
    ensures Span(p, run + rest) == |run|
  {
    var s := run + rest;
    assert forall k :: 0 <= k < |run| ==> s[k] == run[k];
    if |rest| > 0 {
      assert s[|run|] == rest[0];
    }
  }

  /** Go's strings.TrimSpace: `s` without its leading and trailing whitespace. */
  function TrimSpace(s: string): (r: string)
    ensures Span(IsSpace, s) + |r| <= |s|
    ensures r == s[Span(IsSpace, s)..Span(IsSpace, s) + |r|]
    ensures All(IsSpace, s[Span(IsSpace, s) + |r|..])
    ensures |r| == 0 || (!IsSpace(r[0]) && !IsSpace(r[|r| - 1]))
  {
    var t := s[Span(IsSpace, s)..];
    t[..|t| - SpanEnd(IsSpace, t)]
  }

  /** A value trims to nothing exactly when it is all whitespace. */
  lemma TrimSpaceEmpty(s: string)
    ensures TrimSpace(s) == "" <==> All(IsSpace, s)
  {
    var n := Span(IsSpace, s);
    var r := TrimSpace(s);
    if r == "" {
      assert s == s[..n] + s[n + |r|..];
    }
    if All(IsSpace, s) {
      assert n == |s|;
    }
  }

  /** Trimming twice is trimming once. */
  lemma TrimSpaceIdempotent(s: string)
    ensures TrimSpace(TrimSpace(s)) == TrimSpace(s)
  {
    var r := TrimSpace(s);
    if |r| > 0 {
      SpanOfRun(IsSpace, [], r);
      assert [] + r == r;
      var t := r[Span(IsSpace, r)..];
      assert t == r;
      assert SpanEnd(IsSpace, t) == 0;
    }
  }

  function LowerAscii(c: char): char {
    if 'A' <= c <= 'Z' then (c as int + 32) as char else c
  }

  predicate EqualsIgnoreCase(s: string, t: string) {
    |s| == |t| && forall k :: 0 <= k < |s| ==> LowerAscii(s[k]) == LowerAscii(t[k])
  }

  /** `s` without one leading '+' or '-'. */
  function Unsigned(s: string): string {
    if |s| > 0 && (s[0] == '+' || s[0] == '-') then s[1..] else s
  }

  /** Optionally signed, then at least one digit and nothing else. */
  predicate IsSignedInteger(s: string) {
    var t := Unsigned(s);
    |t| > 0 && All(IsDigit, t)
  }

  /** Nothing, or an exponent marker followed by a signed integer. */
  predicate IsExponentOrEmpty(s: string) {
    |s| == 0 || ((s[0] == 'e' || s[0] == 'E') && IsSignedInteger(s[1..]))
  }

  /** Digits with at most one decimal point, at least one digit in all, then an optional exponent. */
  predicate IsDecimal(s: string) {
    var a := Span(IsDigit, s);
    var t := s[a..];
    if |t| > 0 && t[0] == '.' then
      var b := Span(IsDigit, t[1..]);
      a + b > 0 && IsExponentOrEmpty(t[1 + b..])
    else
      a > 0 && IsExponentOrEmpty(t)
  }

  /** The decimal syntax accepted by Go's strconv.ParseFloat(s, 64), together with its
      special values: a signed "inf" or "infinity" and an unsigned "nan", in any case. */
  predicate IsFloat(s: string) {
    var u := Unsigned(s);
    || EqualsIgnoreCase(u, "inf")
    || EqualsIgnoreCase(u, "infinity")
    || EqualsIgnoreCase(s, "nan")
    || IsDecimal(u)
  }

  function DigitChar(d: nat): char
    requires d < 10
  {
    ('0' as int + d) as char
  }

  /** The value of a numeral, most significant digit first. */
  function DigitsValue(s: string): nat
    requires All(IsDigit, s)
  {
    if |s| == 0 then 0
    else DigitsValue(s[..|s| - 1]) * 10 + (s[|s| - 1] as int - '0' as int)
  }

  /** Go's `%d` rendering of a natural number. */
  function Decimal(n: nat): (r: string)
    ensures |r| > 0 && All(IsDigit, r)
  {
    if n < 10 then [DigitChar(n)] else Decimal(n / 10) + [DigitChar(n % 10)]
  }

  /** Reading a rendered numeral gives back the number. */
  lemma {:induction false} DecimalValue(n: nat)
    ensures DigitsValue(Decimal(n)) == n
  {
    if n >= 10 {
      var r := Decimal(n);
      assert r[..|r| - 1] == Decimal(n / 10);
      DecimalValue(n / 10);
    }
  }
}

=== FILE: upload.dfy ===
/** uploadHandler: validate the request, select the adapter by extension, infer the
    column types, create the table, load the rows, and report. The database is the
    oracle `db`; the response carries the reply and every statement executed. */
module Upload {
  import opened Outcomes
  import opened Dataset
  import opened Text
  import opened SqlText
  import opened Database
  import opened Inference
  import opened Schema
  import opened Loader
  import opened Tabular

  /** The fixed name of the target table. */
  const TableName := "uploaded_data"

  /** The uploaded file: its name and size, and what each decoder yields for its bytes:
      the records the semicolon-separated tokenizer produces, before its field-count check
      (None on a syntax error), and the workbook decoder's view. */
  datatype FileUpload = FileUpload(fileName: string, size: nat, csvRecords: Option<seq<Row>>, workbook: Workbook)

  /** The request after multipart parsing: its method and the "file" field, None when the
      body does not parse or the field is missing. */
  datatype Request = Request(httpMethod: string, upload: Option<FileUpload>)

  datatype Reply =
    | Loaded(fileName: string, size: nat, columns: seq<string>, rowCount: nat)
    | Rejected(error: ErrorKind)

  datatype Response = Response(reply: Reply, trace: seq<Statement>)

  /** The status the handler means to send: 200 on success, StatusCode on an error. */
  function Status(reply: Reply): nat {
    match reply
    case Loaded(_, _, _, _) => 200
    case Rejected(e) => StatusCode(e)
  }

  /** The `switch` on the extension: exactly ".csv" or ".xlsx" selects a reader. */
  function Dispatch(ext: string, f: FileUpload): (r: Result<Table>)
    ensures ext != ".csv" && ext != ".xlsx" ==> r == Err(UnsupportedFormat)
    ensures ext == ".csv" ==> r == ReadCsv(f.csvRecords)
    ensures ext == ".xlsx" ==> r == ReadXlsx(f.workbook)
    ensures r.Err? ==> !IsServerError(r.error) && r.error != WrongMethod && r.error != BadForm
  {
    if ext == ".csv" then ReadCsv(f.csvRecords)
    else if ext == ".xlsx" then ReadXlsx(f.workbook)
    else Err(UnsupportedFormat)
  }

  /** Format selection and parsing: the extension must be exactly ".csv" or ".xlsx". */
  function ParseUpload(f: FileUpload): (r: Result<Table>)
    ensures Ext(f.fileName) != ".csv" && Ext(f.fileName) != ".xlsx" ==> r == Err(UnsupportedFormat)
    ensures Ext(f.fileName) == ".csv" && (f.csvRecords.None? || !SameWidth(f.csvRecords.value)) ==>
      r == Err(CsvUnreadable)
    ensures Ext(f.fileName) == ".csv" && f.csvRecords.Some? && SameWidth(f.csvRecords.value) ==>
      r == SplitCsv(f.csvRecords.value)
    ensures Ext(f.fileName) == ".xlsx" ==> r == ReadXlsx(f.workbook)
    ensures r.Err? ==> !IsServerError(r.error) && r.error != WrongMethod && r.error != BadForm
  {
    Dispatch(Ext(f.fileName), f)
  }

  /** The database part of an upload: the DDL, then, when it is accepted, the load. */
  function LoadRun(db: Oracle, t: Table, types: seq<string>): Run
    requires |types| >= |t.headers|
  {
    var ddl := CreateTable(db, [], TableName, t.headers, types);
    if ddl.outcome.Fail? then ddl else InsertRows(db, ddl.trace, TableName, t.headers, t.rows)
  }

  /** The first statement to reach the database is the DDL, with no arguments. The
      database rejects it exactly when the run is that one statement, failed with
      `CreateFailed`: no INSERT is attempted after a rejected DDL. */
  lemma LoadRunDdl(db: Oracle, t: Table, types: seq<string>)
    requires |types| >= |t.headers| > 0
    ensures var run := LoadRun(db, t, types);
      && |run.trace| >= 1
      && run.trace[0] == Statement(CreateTableSql(TableName, t.headers, types).value, [])
      && (run.outcome == Fail(CreateFailed) <==> |run.trace| == 1 && !db([], run.trace[0]))
      && (!db([], run.trace[0]) <==> run == Run([run.trace[0]], Fail(CreateFailed)))
  {
    var ddl := CreateTable(db, [], TableName, t.headers, types);
    if ddl.outcome.Pass? {
      var ins := InsertRows(db, ddl.trace, TableName, t.headers, t.rows);
      assert ins.trace[0] == ddl.trace[0] by {
        assert ins.trace[..|ddl.trace|][0] == ins.trace[0];
      }
    }
  }

  /** Every later statement is the shared INSERT template bound to the arguments of the
      row at the same position, so rows are loaded in file order. */
  lemma LoadRunInserts(db: Oracle, t: Table, types: seq<string>)
    requires |types| >= |t.headers|
    ensures var run := LoadRun(db, t, types);
      && |run.trace| <= 1 + |t.rows|
      && forall k :: 1 <= k < |run.trace| ==>
        run.trace[k] == Statement(InsertTemplate(TableName, t.headers), ArgsFor(t.headers, t.rows[k - 1]))
  {
    var ddl := CreateTable(db, [], TableName, t.headers, types);
    if ddl.outcome.Pass? {
      assert ddl.trace == [ddl.trace[0]];
      InsertRowsAfterOne(db, ddl.trace[0], TableName, t.headers, t.rows);
    }
  }

  /** The load passes exactly when the table has columns and the database accepted the
      DDL and one statement per row; every failure here is a server error. */
  lemma LoadRunOutcome(db: Oracle, t: Table, types: seq<string>)
    requires |types| >= |t.headers|
    ensures var run := LoadRun(db, t, types);
      && (|t.headers| == 0 ==> run == Run([], Fail(NoColumns)))
      && (run.outcome.Fail? ==> IsServerError(run.outcome.error))
      && (run.outcome.Pass? <==> |t.headers| > 0 && |run.trace| == 1 + |t.rows| && AcceptedFrom(db, run.trace, 0))
  {
    var ddl := CreateTable(db, [], TableName, t.headers, types);
    if ddl.outcome.Pass? {
      var ins := InsertRows(db, ddl.trace, TableName, t.headers, t.rows);
      assert ins.trace[0] == ddl.trace[0] by {
        assert ins.trace[..|ddl.trace|][0] == ins.trace[0];
      }
      assert AcceptedFrom(db, ins.trace, 0) <==> AcceptedFrom(db, ins.trace, 1) by {
        assert ins.trace[..0] == [];
      }
      if ins.outcome.Fail? {
        assert !AcceptedFrom(db, ins.trace, 0);
      }
    }
  }

  /** A failed load stops at the statement the database rejected: every earlier statement
      was accepted and the last one was not. */
  lemma LoadRunStopsAtRejection(db: Oracle, t: Table, types: seq<string>)
    requires |types| >= |t.headers| > 0
    ensures var run := LoadRun(db, t, types);
      run.outcome.Fail? ==> StopsAtRejection(db, run.trace)
  {
    var ddl := CreateTable(db, [], TableName, t.headers, types);
    var run := LoadRun(db, t, types);
    if ddl.outcome.Pass? {
      assert run == InsertRows(db, ddl.trace, TableName, t.headers, t.rows);
      InsertRowsStopAfterOne(db, ddl.trace, TableName, t.headers, t.rows);
    } else {
      assert run == ddl;
      assert ddl.trace[..0] == [];
    }
  }

  /** The reply for a finished database run: the upload's summary when the run passed,
      its error otherwise, with the run's trace either way. */
  function Report(f: FileUpload, t: Table, run: Run): (resp: Response)
    ensures resp.trace == run.trace
    ensures resp.reply.Loaded? <==> run.outcome.Pass?
    ensures resp.reply.Loaded? ==> resp.reply == Loaded(f.fileName, f.size, t.headers, |t.rows|)
    ensures resp.reply.Rejected? ==> resp.reply.error == run.outcome.error
  {
    Response(if run.outcome.Pass? then Loaded(f.fileName, f.size, t.headers, |t.rows|) else Rejected(run.outcome.error), run.trace)
  }

  /** Create the table with the given column types, then load the rows, and report. */
  function CreateAndLoad(db: Oracle, f: FileUpload, t: Table, types: seq<string>): (resp: Response)
    requires |types| >= |t.headers|
    ensures |t.headers| == 0 ==> resp == Response(Rejected(NoColumns), [])
    ensures resp.reply.Rejected? ==> IsServerError(resp.reply.error)
    ensures resp.reply.Loaded? <==>
      |t.headers| > 0 && |resp.trace| == 1 + |t.rows| && AcceptedFrom(db, resp.trace, 0)
    ensures resp.reply.Loaded? ==> resp.reply == Loaded(f.fileName, f.size, t.headers, |t.rows|)
    ensures resp.trace == LoadRun(db, t, types).trace
    ensures resp.reply.Rejected? ==> LoadRun(db, t, types).outcome == Fail(resp.reply.error)
    ensures resp.reply.Rejected? && |t.headers| > 0 ==> StopsAtRejection(db, resp.trace)
  {
    LoadRunOutcome(db, t, types);
    if |t.headers| > 0 then
      LoadRunStopsAtRejection(db, t, types);
      Report(f, t, LoadRun(db, t, types))
    else Report(f, t, LoadRun(db, t, types))
  }

  /** Everything after the "file" field has been found: parse, infer the column types
      from the data rows, then create and load. A reported load carries the parsed
      headers and row count, and its first statement is the DDL for the inferred types. */
  function HandleUpload(db: Oracle, f: FileUpload): (resp: Response)
    ensures resp.reply.Rejected? && !IsServerError(resp.reply.error) ==> resp.trace == []
    ensures resp.reply.Rejected? ==> resp.reply.error != WrongMethod && resp.reply.error != BadForm
    ensures resp.reply.Loaded? ==>
      |resp.trace| == 1 + resp.reply.rowCount && AcceptedFrom(db, resp.trace, 0)
    ensures resp.reply.Loaded? ==>
      && ParseUpload(f).Ok?
      && var t := ParseUpload(f).value;
      && resp.reply == Loaded(f.fileName, f.size, t.headers, |t.rows|)
      && |t.headers| > 0
      && resp.trace[0] == Statement(CreateTableSql(TableName, t.headers, ColumnTypes(t.headers, t.rows)).value, [])
    ensures resp.reply.Rejected? && resp.trace != [] ==> StopsAtRejection(db, resp.trace)
    ensures ParseUpload(f).Ok? && |ParseUpload(f).value.headers| > 0 ==>
      var t := ParseUpload(f).value;
      var ddl := Statement(CreateTableSql(TableName, t.headers, ColumnTypes(t.headers, t.rows)).value, []);
      && |resp.trace| >= 1
      && resp.trace[0] == ddl
      && (!db([], ddl) <==> resp == Response(Rejected(CreateFailed), [ddl]))
    ensures ParseUpload(f).Ok? ==>
      var t := ParseUpload(f).value;
      && |resp.trace| <= 1 + |t.rows|
      && forall k :: 1 <= k < |resp.trace| ==>
           resp.trace[k] == Statement(InsertTemplate(TableName, t.headers), ArgsFor(t.headers, t.rows[k - 1]))
  {
    match ParseUpload(f)
    case Err(e) => Response(Rejected(e), [])
    case Ok(t) =>
      var types := ColumnTypes(t.headers, t.rows);
      var resp := CreateAndLoad(db, f, t, types);
      LoadRunInserts(db, t, types);
      if |t.headers| > 0 then
        LoadRunDdl(db, t, types);
        resp
      else resp
  }

  /** The handler. Nothing reaches the database before the request has been validated and
      the upload parsed: every client error (405 or 400) leaves the trace empty. On
      success the trace is the DDL followed by one accepted INSERT per reported row. */
  function Handle(db: Oracle, req: Request): (resp: Response)
    ensures req.httpMethod != "POST" ==> resp == Response(Rejected(WrongMethod), [])
    ensures req.httpMethod == "POST" && req.upload.None? ==> resp == Response(Rejected(BadForm), [])
    ensures Status(resp.reply) in {200, 400, 405, 500}
    ensures Status(resp.reply) == 400 || Status(resp.reply) == 405 ==> resp.trace == []
    ensures resp.reply.Loaded? ==>
      |resp.trace| == 1 + resp.reply.rowCount && AcceptedFrom(db, resp.trace, 0)
    ensures resp.reply.Rejected? && resp.trace != [] ==> StopsAtRejection(db, resp.trace)
  {
    if req.httpMethod != "POST" then Response(Rejected(WrongMethod), [])
    else
      match req.upload
      case None => Response(Rejected(BadForm), [])
      case Some(f) => HandleUpload(db, f)
  }

  /** Any extension other than exactly ".csv" or ".xlsx" (so ".CSV" too) is a 400 before
      any statement reaches the database. */
  lemma UnsupportedExtensionRejected(db: Oracle, f: FileUpload)
    requires Ext(f.fileName) != ".csv" && Ext(f.fileName) != ".xlsx"
    ensures Handle(db, Request("POST", Some(f))) == Response(Rejected(UnsupportedFormat), [])
    ensures Status(Rejected(UnsupportedFormat)) == 400
  {
  }

  /** A CSV upload runs, in order, the DDL for the first record's columns with their
      inferred types, then one INSERT per later record, each binding all of that record's
      cells: records of equal width never lose their arguments. */
  lemma CsvUploadTrace(db: Oracle, name: string, size: nat, records: seq<Row>, book: Workbook)
    requires Ext(name) == ".csv"
    requires |records| >= 2 && |records[0]| > 0 && SameWidth(records)
    ensures var resp := Handle(db, Request("POST", Some(FileUpload(name, size, Some(records), book))));
      var headers := records[0];
      && 1 <= |resp.trace| <= |records|
      && resp.trace[0] == Statement(CreateTableSql(TableName, headers, ColumnTypes(headers, records[1..])).value, [])
      && (forall k :: 1 <= k < |resp.trace| ==>
            resp.trace[k] == Statement(InsertTemplate(TableName, headers), ArgsFor(headers, records[k])))
      && (forall k :: 1 <= k < |resp.trace| ==> |resp.trace[k].args| == |headers|)
      && (resp.reply.Loaded? <==> |resp.trace| == |records| && AcceptedFrom(db, resp.trace, 0))
      && (resp.reply.Loaded? ==> resp.reply == Loaded(name, size, headers, |records| - 1))
      && (resp.reply.Rejected? ==> StopsAtRejection(db, resp.trace))
  {
    var f := FileUpload(name, size, Some(records), book);
    var t := Table(records[0], records[1..]);
    var types := ColumnTypes(t.headers, t.rows);
    assert ParseUpload(f) == Ok(t);
    var resp := Handle(db, Request("POST", Some(f)));
    assert resp == CreateAndLoad(db, f, t, types);
    LoadRunDdl(db, t, types);
    LoadRunInserts(db, t, types);
    forall k | 1 <= k < |resp.trace|
      ensures resp.trace[k] == Statement(InsertTemplate(TableName, t.headers), ArgsFor(t.headers, records[k]))
      ensures |resp.trace[k].args| == |t.headers|
    {
      assert t.rows[k - 1] == records[k];
      assert |records[k]| == |records[0]|;
    }
  }

  /** With a database that accepts every statement, a CSV upload of equal-width records
      is reported loaded, with every data record inserted. */
  lemma CsvUploadAllAccepted(db: Oracle, name: string, size: nat, records: seq<Row>, book: Workbook)
    requires Ext(name) == ".csv"
    requires |records| >= 2 && |records[0]| > 0 && SameWidth(records)
    requires forall h, st :: db(h, st)
    ensures var resp := Handle(db, Request("POST", Some(FileUpload(name, size, Some(records), book))));
      && resp.reply == Loaded(name, size, records[0], |records| - 1)
      && |resp.trace| == |records|
  {
    var resp := Handle(db, Request("POST", Some(FileUpload(name, size, Some(records), book))));
    CsvUploadTrace(db, name, size, records, book);
    NothingRejectedByAcceptAll(db, resp);
  }

  /** A database that accepts every statement never leaves a trace ending at a rejection. */
  lemma NothingRejectedByAcceptAll(db: Oracle, resp: Response)
    requires forall h, st :: db(h, st)
    requires resp.reply.Rejected? ==> StopsAtRejection(db, resp.trace)
    ensures resp.reply.Loaded?
  {
  }

  /** A CSV file whose records differ in width is a read error, a 400 before any
      statement, so ragged rows never reach the type inference or the load. */
  lemma CsvRaggedRejected(db: Oracle, name: string, size: nat, records: seq<Row>, book: Workbook)
    requires Ext(name) == ".csv" && !SameWidth(records)
    ensures Handle(db, Request("POST", Some(FileUpload(name, size, Some(records), book))))
         == Response(Rejected(CsvUnreadable), [])
    ensures Status(Rejected(CsvUnreadable)) == 400
  {
  }

  /** A CSV upload with only a header record is a client error before any statement. */
  lemma CsvWithoutDataRejected(db: Oracle, name: string, size: nat, records: seq<Row>, book: Workbook)
    requires Ext(name) == ".csv" && |records| < 2
    ensures Handle(db, Request("POST", Some(FileUpload(name, size, Some(records), book))))
         == Response(Rejected(TooFewRecords), [])
  {
    var f := FileUpload(name, size, Some(records), book);
    assert SameWidth(records);
    assert ParseUpload(f) == Err(TooFewRecords);
  }

  /** An XLSX upload needs no data row: a sheet holding just a non-empty header row
      runs the DDL alone, without a single INSERT, and once the database accepts it the
      upload is reported with zero rows. */
  lemma XlsxHeaderOnlyLoaded(db: Oracle, name: string, size: nat, csv: Option<seq<Row>>, sheet: string, headers: Row)
    requires Ext(name) == ".xlsx" && sheet != "" && |headers| > 0
    ensures var resp := Handle(db, Request("POST", Some(FileUpload(name, size, csv, Opened([sheet], Some([Some(headers)]))))));
      && resp.trace == [Statement(CreateTableSql(TableName, headers, ColumnTypes(headers, [])).value, [])]
      && (resp.reply == Loaded(name, size, headers, 0) <==> db([], resp.trace[0]))
  {
    var f := FileUpload(name, size, csv, Opened([sheet], Some([Some(headers)])));
    var t := Table(headers, []);
    HeaderOnlySheet([sheet], headers);
    assert ParseUpload(f) == Ok(t);
    var types := ColumnTypes(headers, []);
    var resp := Handle(db, Request("POST", Some(f)));
    assert resp == CreateAndLoad(db, f, t, types);
    LoadRunDdl(db, t, types);
    LoadRunInserts(db, t, types);
  }

  /** An XLSX upload whose sheet reads runs, after the DDL, one INSERT per later sheet
      row in order, each bound to that row's cells. A row that ends before the header
      does, its trailing cells empty, is bound to no arguments at all. */
  lemma XlsxUploadTrace(db: Oracle, name: string, size: nat, csv: Option<seq<Row>>, names: seq<string>, items: seq<Option<Row>>)
    requires Ext(name) == ".xlsx" && FirstSheetName(names) != ""
    requires AllRead(items) && |items| > 0 && |items[0].value| > 0
    ensures var resp := Handle(db, Request("POST", Some(FileUpload(name, size, csv, Opened(names, Some(items))))));
      var headers := items[0].value;
      && 1 <= |resp.trace| <= |items|
      && (forall k :: 1 <= k < |resp.trace| ==>
            resp.trace[k] == Statement(InsertTemplate(TableName, headers), ArgsFor(headers, items[k].value)))
      && (forall k :: 1 <= k < |resp.trace| && |items[k].value| < |headers| ==> resp.trace[k].args == [])
  {
    var f := FileUpload(name, size, csv, Opened(names, Some(items)));
    var t := ReadXlsx(f.workbook).value;
    assert ParseUpload(f) == Ok(t);
    var resp := Handle(db, Request("POST", Some(f)));
    assert resp == HandleUpload(db, f);
    forall k | 1 <= k < |resp.trace|
      ensures resp.trace[k] == Statement(InsertTemplate(TableName, t.headers), ArgsFor(t.headers, items[k].value))
    {
      assert t.rows[k - 1] == items[k].value;
    }
  }

  /** One write the handler makes to the response: an explicit status, as `http.Error`
      sets before its message, or body text. */
  datatype Write = WriteHeader(code: nat) | WriteBody

  /** The status net/http sends: the first write fixes it. A body write before any
      `WriteHeader` fixes 200, and every later `WriteHeader` is ignored. With no write
      at all the status is 200. */
  function CommittedStatus(writes: seq<Write>): nat {
    if |writes| == 0 then 200
    else match writes[0]
      case WriteHeader(code) => code
      case WriteBody => 200
  }

  /** Only the first write counts: writes appended later never change the status. */
  lemma CommittedStatusIgnoresLater(writes: seq<Write>, later: seq<Write>)
    requires |writes| > 0
    ensures CommittedStatus(writes + later) == CommittedStatus(writes)
  {
    assert (writes + later)[0] == writes[0];
  }

  /** The writes of the handler as written. A request that fails before the file is found
      gets `http.Error` alone. Otherwise the "received file" line comes first, followed
      by `http.Error` for a rejection or by the "columns" and "row count" lines. */
  function HandlerWrites(req: Request, resp: Response): (writes: seq<Write>)
    ensures |writes| >= 2
    ensures req.httpMethod == "POST" && req.upload.Some? ==> writes[0] == WriteBody
    ensures !(req.httpMethod == "POST" && req.upload.Some?) ==>
      writes == [WriteHeader(Status(resp.reply)), WriteBody]
    ensures resp.reply.Rejected? ==> WriteHeader(StatusCode(resp.reply.error)) in writes
  {
    if req.httpMethod == "POST" && req.upload.Some? then
      match resp.reply
      case Loaded(_, _, _, _) => [WriteBody, WriteBody, WriteBody]
      case Rejected(e) => [WriteBody, WriteHeader(StatusCode(e)), WriteBody]
    else [WriteHeader(Status(resp.reply)), WriteBody]
  }

  /** The status the client receives from the handler as written. */
  function WireStatus(req: Request, resp: Response): nat {
    CommittedStatus(HandlerWrites(req, resp))
  }

  /** Before the "received file" line nothing has been written, so the 405 and the missing
      form's 400 reach the client as intended. */
  lemma WireStatusBeforeFileLine(db: Oracle, req: Request)
    requires !(req.httpMethod == "POST" && req.upload.Some?)
    ensures WireStatus(req, Handle(db, req)) == Status(Handle(db, req).reply)
    ensures WireStatus(req, Handle(db, req)) in {400, 405}
  {
  }

  /** Every error raised after the "received file" line, whether a client or a server
      error, reaches the client as 200. */
  lemma WireStatusMasksErrors(db: Oracle, req: Request)
    requires req.httpMethod == "POST" && req.upload.Some?
    ensures Handle(db, req).reply.Rejected? ==>
      && Status(Handle(db, req).reply) in {400, 500}
      && WriteHeader(Status(Handle(db, req).reply)) in HandlerWrites(req, Handle(db, req))
    ensures WireStatus(req, Handle(db, req)) == 200
  {
    var writes := HandlerWrites(req, Handle(db, req));
    CommittedStatusIgnoresLater([writes[0]], writes[1..]);
    assert writes == [writes[0]] + writes[1..];
  }

  /** Concretely: a ".txt" upload should be a 400 but is answered with 200. */
  lemma TxtUploadAnsweredOk(db: Oracle, size: nat, csv: Option<seq<Row>>, book: Workbook)
    ensures var req := Request("POST", Some(FileUpload("data.txt", size, csv, book)));
      && Handle(db, req) == Response(Rejected(UnsupportedFormat), [])
      && Status(Handle(db, req).reply) == 400
      && WireStatus(req, Handle(db, req)) == 200
  {
    var f := FileUpload("data.txt", size, csv, book);
    TxtExtension();
    UnsupportedExtensionRejected(db, f);
  }

  lemma TxtExtension()
    ensures Ext("data.txt") == ".txt"
  {
    assert ExtBelow("data.txt", 8) == ExtBelow("data.txt", 7) == ExtBelow("data.txt", 6)
        == ExtBelow("data.txt", 5) == ".txt";
  }
}
